=== FILE: README.md ===
# PASETO token framing, modelled in Dafny

This project models the framing layer of the `Paseto` facade of a Java PASETO
library. A PASETO token is a dotted string `version.purpose.payload[.footer]`.
The facade provides four small operations on it:

- `split` cuts the token into VERSION, PURPOSE, PAYLOAD and an optional FOOTER.
  It returns a `null` array for anything that cannot be a token.
- `checkHeader` tests that the token starts with the literal header
  `"<version>.<purpose>."`.
- `decodeFooter` base64url-decodes the footer. When the caller gave a
  non-empty expected footer, it also checks the decoded footer against it.
- `extractFooter` returns the decoded footer as a string, or as a typed
  object through the encoding provider. It returns `null` when there is no
  footer.

The model also covers the convenience overloads of `encrypt`, `decrypt`,
`sign` and `verify`, and the `...WithFooter` variants. They all delegate to
the abstract operations.

Modules:

- `Wrappers` (`wrappers.dfy`): `Option` stands in for Java `null`. `Result`
  and `Outcome` stand in for thrown exceptions.
- `JavaStrings` (`java_strings.dfy`): nullable strings, and the `StringUtils`
  helpers `isEmpty`, `ntes` and `isEqual`. It also defines
  `String.split(Pattern.quote("."))` with limit 0, built from two parts.
  `Pieces` cuts at every separator and keeps all empty pieces.
  `DropTrailingBlanks` removes the trailing empty pieces, as Java does for
  limit 0. `JavaSplit` adds Java's special case: when the separator does not
  occur at all, the result is the input itself.
- `Framing` (`framing.dfy`): `Split`, `CheckHeader`, `DecodeFooter`,
  `ExtractFooter` and `ExtractFooterAs`, plus their properties. A failed
  parse (`Unparseable`) and an absent footer (`footer == None`) are separate
  values. Java's `NullPointerException` is the error `NullDereference`.
- `Facade` (`facade.dfy`): the bound facade `Engine` holds the four abstract
  operations and the encoding provider's footer serialiser as function
  values. `Encrypt`, `Decrypt`, `Sign` and `Verify` model the overloads that
  take no footer or a footer object. `DecryptWithFooter`,
  `DecryptWithTypedFooter`, `VerifyWithFooter` and `VerifyWithTypedFooter`
  are built on `PairWithFooter` and `PairWithTypedFooter`.

The central result is `Framing.SplitCharacterization`. It says exactly which
strings `split` accepts: `split` yields sections `s` if and only if both of
these hold:

- No section of `s` contains a `.`, and the last section present is non-empty.
- The token is the sections joined by `.`, followed by zero or more `.`.

Base64url decoding and UTF-8 decoding are the fields of `Framing.Codecs`.
Their behaviour is left abstract, and the decoder may reject its input.

The Javadoc of `split` (Paseto.java:133-135) says that a string without 3 or
4 sections gives a `null` array. The code uses Java's `split`, which drops
trailing empty pieces, so it also accepts tokens that end in extra `.`
characters. The model follows the code:

- `"v2.local.p."` parses as three sections with no footer.
- `"a.b.c.d.."` parses as four sections.
- `"..."` yields no pieces and is rejected.

## Model

| member | source | states |
|---|---|---|
| JavaStrings.Pieces | paseto-core/src/main/java/net/aholbrook/paseto/Paseto.java:142 | Cutting at every separator gives at least one piece, and no piece contains the separator. |
| JavaStrings.JoinPieces | paseto-core/src/main/java/net/aholbrook/paseto/Paseto.java:142 | Joining the pieces of a string with the separator gives back the string, so no character is lost or reordered. |
| JavaStrings.PiecesOfJoin | paseto-core/src/main/java/net/aholbrook/paseto/Paseto.java:142 | Cutting the join of separator-free pieces gives back exactly those pieces, empty ones included. |
| JavaStrings.DropTrailingBlanks | paseto-core/src/main/java/net/aholbrook/paseto/Paseto.java:142 | The result is a prefix of the input. It does not end in an empty piece. The input is the result followed only by empty pieces. |
| JavaStrings.JavaSplit | paseto-core/src/main/java/net/aholbrook/paseto/Paseto.java:142 | No piece contains the separator. Without a separator the result is the input alone. Otherwise the last piece is never empty. |
| JavaStrings.JavaSplitInverse | paseto-core/src/main/java/net/aholbrook/paseto/Paseto.java:142 | The input equals the join of the split pieces plus the trailing separators that the split dropped. |
| JavaStrings.JavaSplitOfJoin | paseto-core/src/main/java/net/aholbrook/paseto/Paseto.java:142 | For separator-free pieces whose last piece is non-empty, splitting their join followed by any number of trailing separators gives back the pieces. |
| JavaStrings.JavaSplitAllSeparators | paseto-core/src/main/java/net/aholbrook/paseto/Paseto.java:142 | A string made only of separators splits into no pieces at all. |
| Framing.Split | paseto-core/src/main/java/net/aholbrook/paseto/Paseto.java:140-152 | A null or empty token is rejected. Any other token is accepted exactly when Java's split gives 3 or 4 pieces. Accepted sections are well formed. In order, they are exactly the pieces of Java's split, 3 with no footer or 4 with a footer. |
| Framing.SplitSound | paseto-core/src/main/java/net/aholbrook/paseto/Paseto.java:140-152 | Every accepted token is its sections joined by `.`, followed by some number of dropped trailing separators. |
| Framing.SplitComplete | paseto-core/src/main/java/net/aholbrook/paseto/Paseto.java:142-147 | Any well-formed sections, assembled and followed by any number of `.`, are accepted and returned unchanged and in order. |
| Framing.SplitCharacterization | paseto-core/src/main/java/net/aholbrook/paseto/Paseto.java:130-152 | `split` yields `s` if and only if `s` is well formed and the token is `s` assembled plus trailing `.`. So a trailing `.` never gives an empty footer. |
| Framing.WrongSectionCountRejected | paseto-core/src/main/java/net/aholbrook/paseto/Paseto.java:144-151 | Separator-free pieces whose count is neither 3 nor 4 never form an accepted token, whatever trailing separators follow. |
| Framing.TrailingSeparatorGivesNoFooter | paseto-core/src/main/java/net/aholbrook/paseto/Paseto.java:142-147 | `"v2.local.p."` gives three sections and an absent footer. |
| Framing.InnerEmptySectionKept | paseto-core/src/main/java/net/aholbrook/paseto/Paseto.java:142-145 | `"a..b.c"` gives four sections, and the second one is empty. |
| Framing.TrailingSeparatorsIgnored | paseto-core/src/main/java/net/aholbrook/paseto/Paseto.java:142-145 | `"a.b.c.d.."` gives the four sections `a`, `b`, `c`, `d`. |
| Framing.DegenerateTokensRejected | paseto-core/src/main/java/net/aholbrook/paseto/Paseto.java:140-151 | `"..."`, the empty token and the null token are all rejected. |
| Framing.CheckHeader | paseto-core/src/main/java/net/aholbrook/paseto/Paseto.java:154-158 | It passes exactly when the token starts with the expected header. A null token or header throws a null dereference. On a mismatch it fails with InvalidHeader when the sections parsed, and with a null dereference when they did not. On an InvalidHeader failure, the error carries `version + "." + purpose + "."`, the expected header and the token. |
| Framing.CheckHeaderComparesSections | paseto-core/src/main/java/net/aholbrook/paseto/Paseto.java:154-157 | On a parsed token, the literal prefix test against a separator-free header passes exactly when both the VERSION and PURPOSE sections match. |
| Framing.ReportedHeaderIsTokenPrefix | paseto-core/src/main/java/net/aholbrook/paseto/Paseto.java:155-156 | On a rejected parsed token, the reported header is InvalidHeader. It is a prefix of the token and differs from the expected header. |
| Framing.CrossVersionRejected | paseto-core/src/main/java/net/aholbrook/paseto/Paseto.java:154-157 | A `v2.local` token passes the `v2.local.` check. It fails the `v1.local.` and `v2.public.` checks, and each error reports `v2.local.`. |
| Framing.DecodeFooter | paseto-core/src/main/java/net/aholbrook/paseto/Paseto.java:160-172 | A null sections array throws. An absent section is read as `""`. A section the decoder rejects gives MalformedBase64 for that section. Once decoded, the footer is returned when the expected footer is null or empty or equal to it. InvalidFooter happens exactly when the expected footer is non-empty and differs, and it carries the decoded footer, the expected footer and the token. A successful check returns the expected footer. |
| Framing.AbsentFooterReadsAsEmpty | paseto-core/src/main/java/net/aholbrook/paseto/Paseto.java:161-162 | An absent footer section decodes exactly like an empty one. |
| Framing.ExtractFooter | paseto-core/src/main/java/net/aholbrook/paseto/Paseto.java:112-119 | It fails with a null dereference exactly when `split` rejects the token. It returns null exactly when the footer section is absent or empty. Otherwise it returns the decoded footer section, or MalformedBase64 for that section when the decoder rejects it. |
| Framing.ExtractFooterAgreesWithDecodeFooter | paseto-core/src/main/java/net/aholbrook/paseto/Paseto.java:112-119 | When a footer section is present, `extractFooter` and `decodeFooter` without an expected footer give the same text or the same error. |
| Framing.ExtractFooterOfAssembled | paseto-core/src/main/java/net/aholbrook/paseto/Paseto.java:112-119 | On an assembled token, it returns the decoded footer, or null when the token has no footer. |
| Framing.ExtractFooterAs | paseto-core/src/main/java/net/aholbrook/paseto/Paseto.java:121-128 | A failure of the string form is passed on unchanged. A null or empty string form gives null without consulting the provider. Otherwise the result is the provider's decoding, which may itself fail or be null. |
| Framing.ExtractFooterAsOfAssembled | paseto-core/src/main/java/net/aholbrook/paseto/Paseto.java:121-128 | On an assembled token: null without a footer section; for a footer section, null when it decodes to `""` and otherwise the provider's decoding of the decoded text; MalformedBase64 when the decoder rejects the section. |
| Facade.NoFooterOverloadsPassNull | paseto-core/src/main/java/net/aholbrook/paseto/Paseto.java:52-78 | The overloads of `encrypt`, `decrypt`, `sign` and `verify` that take no footer call the abstract operation with a null footer. |
| Facade.ObjectFooterOverloadsEncode | paseto-core/src/main/java/net/aholbrook/paseto/Paseto.java:56-82 | The overloads taking a footer object call the abstract operation with the provider's serialisation of that object. When the provider throws, its error is the result. |
| Facade.PairWithFooter | paseto-core/src/main/java/net/aholbrook/paseto/Paseto.java:84-103 | The payload step runs first, and its failure is the result. If it succeeds and `extractFooter` throws, that error is the result. On success the pair holds that payload and `extractFooter`'s footer. A null footer means the token had no footer section, or an empty one. |
| Facade.PairWithTypedFooter | paseto-core/src/main/java/net/aholbrook/paseto/Paseto.java:91-110 | The payload step runs first, and its failure is the result. If it succeeds and the typed `extractFooter` throws, that error is the result. On success the pair holds that payload and the typed footer. |
| Facade.WithFooterReturnsTokenFooter | paseto-core/src/main/java/net/aholbrook/paseto/Paseto.java:84-110 | On an assembled token, a successful `decryptWithFooter` or `verifyWithFooter` pairs the footer-less payload with the token's decoded footer, or with null. |
| Facade.WithTypedFooterReturnsTokenFooter | paseto-core/src/main/java/net/aholbrook/paseto/Paseto.java:91-110 | On an assembled token, a successful typed `decryptWithFooter` or `verifyWithFooter` pairs the footer-less payload with the provider's decoding of the decoded footer, or null; a provider failure is the result. |

## Left out

- The abstract `encrypt`, `decrypt`, `sign`, `verify` and `generateKeyPair` have their bodies in version-specific subclasses, which are not part of this model. They enter only as function values of `Facade.Engine`.
- The cryptographic providers, nonce generation, key generation and the Pre-Authentication Encoding are not part of this model. The facade only stores the nonce generator (Paseto.java:39-44) and declares `generateKeyPair` (Paseto.java:50); none of them is used by the framing code modelled here.
- `net.aholbrook.paseto.util.Base64` and UTF-8 conversion are not part of this model. They are the abstract fields of `Framing.Codecs`. `StringUtils.fromUtf8Bytes` and `new String(..., UTF-8)` are both modelled by the one `utf8Decode`.
- `StringUtils` is not part of this model. `isEmpty`, `ntes` and `isEqual` are given their evident meanings: null or `""`, null to `""`, and null-safe equality.
- `EncodingProvider` is external. Its `encode` is `Engine.encodeFooter`, and its `decode` is the `decodeAs` argument. Both may fail or return null; what they compute is left abstract. Reflective `Class` arguments become type parameters.
- `Paseto.decode` (lines 174-176) is left out. It only hands bytes to the encoding provider after UTF-8 conversion, both external.
- Framing.DecodeFooter: the comment at Paseto.java:164-166 says that without an expected footer the footer is returned unchecked. The model promises this only when the abstract base64url decoder accepts the section; a rejected section gives MalformedBase64.
- Java's overload resolution is not modelled. A caller passing a `String` footer reaches the abstract operation directly, as `Engine`'s raw footer argument.
- The header check's `expectedHeader` comes from subclasses that are not shown. The strings `"v1"` and `"v2"` are used only in `CrossVersionRejected`.

=== FILE: facade.dfy ===
/** The convenience entry points of the `Paseto` facade. The four abstract
    operations (implemented per version and purpose by subclasses that are
    not part of this model) and the encoding provider are function-valued
    parameters; what is modelled is how the overloads delegate to them and
    how the `...WithFooter` variants pair a payload with its footer. */
module Facade {
  import opened Wrappers
  import opened JavaStrings
  import opened Framing

  /** A bound facade: the abstract operations of one version/purpose and the
      encoding provider's serialiser for footer objects, which may throw or
      return `null`. `P` is the payload type, `F` the type of footer objects.
      The last argument of each operation is the raw footer string, `None`
      being `null`. */
  datatype Engine<!P, -F> = Engine(
    encrypt: (P, Bytes, JString) -> Result<string, Error>,
    decrypt: (JString, Bytes, JString) -> Result<P, Error>,
    sign: (P, Bytes, JString) -> Result<string, Error>,
    verify: (JString, Bytes, JString) -> Result<P, Error>,
    encodeFooter: F -> Result<JString, Error>)

  /** A payload together with the footer read from the same token. */
  datatype TokenWithFooter<P, T> = TokenWithFooter(payload: P, footer: T)

  /** The footer string an overload hands to the abstract operation: `null`
      for the overloads without a footer argument, the encoding provider's
      serialisation for those taking a footer object. */
  function FooterArgument<P, F>(engine: Engine<P, F>, footer: Option<F>): Result<JString, Error> {
    match footer
    case None => Success(None)
    case Some(f) => engine.encodeFooter(f)
  }

  function Encrypt<P, F>(engine: Engine<P, F>, payload: P, key: Bytes, footer: Option<F>): Result<string, Error> {
    match FooterArgument(engine, footer)
    case Failure(e) => Failure(e)
    case Success(raw) => engine.encrypt(payload, key, raw)
  }

  function Decrypt<P, F>(engine: Engine<P, F>, token: JString, key: Bytes, footer: Option<F>): Result<P, Error> {
    match FooterArgument(engine, footer)
    case Failure(e) => Failure(e)
    case Success(raw) => engine.decrypt(token, key, raw)
  }

  function Sign<P, F>(engine: Engine<P, F>, payload: P, secretKey: Bytes, footer: Option<F>): Result<string, Error> {
    match FooterArgument(engine, footer)
    case Failure(e) => Failure(e)
    case Success(raw) => engine.sign(payload, secretKey, raw)
  }

  function Verify<P, F>(engine: Engine<P, F>, token: JString, publicKey: Bytes, footer: Option<F>): Result<P, Error> {
    match FooterArgument(engine, footer)
    case Failure(e) => Failure(e)
    case Success(raw) => engine.verify(token, publicKey, raw)
  }

  /** The overloads without a footer argument call the abstract operation
      with a `null` footer, and so never pin the footer. */
  lemma NoFooterOverloadsPassNull<P, F>(engine: Engine<P, F>, payload: P, token: JString, key: Bytes)
    ensures Encrypt(engine, payload, key, None) == engine.encrypt(payload, key, None)
    ensures Decrypt(engine, token, key, None) == engine.decrypt(token, key, None)
    ensures Sign(engine, payload, key, None) == engine.sign(payload, key, None)
    ensures Verify(engine, token, key, None) == engine.verify(token, key, None)
  {
  }

  /** The overloads taking a footer object call the abstract operation with
      the encoding provider's serialisation of that object; when the
      provider throws, its exception reaches the caller and the abstract
      operation is not consulted. */
  lemma ObjectFooterOverloadsEncode<P, F>(engine: Engine<P, F>, payload: P, token: JString, key: Bytes, footer: F)
    ensures engine.encodeFooter(footer).Success? ==>
      var raw := engine.encodeFooter(footer).value;
      && Encrypt(engine, payload, key, Some(footer)) == engine.encrypt(payload, key, raw)
      && Decrypt(engine, token, key, Some(footer)) == engine.decrypt(token, key, raw)
      && Sign(engine, payload, key, Some(footer)) == engine.sign(payload, key, raw)
      && Verify(engine, token, key, Some(footer)) == engine.verify(token, key, raw)
    ensures engine.encodeFooter(footer).Failure? ==>
      var e := engine.encodeFooter(footer).error;
      && Encrypt(engine, payload, key, Some(footer)) == Failure(e)
      && Decrypt(engine, token, key, Some(footer)) == Failure(e)
      && Sign(engine, payload, key, Some(footer)) == Failure(e)
      && Verify(engine, token, key, Some(footer)) == Failure(e)
  {
  }

  /** The shared tail of `decryptWithFooter` and `verifyWithFooter`: the
      payload step runs first and its failure wins; then the footer is read
      from the token with `extractFooter`, whose exception also reaches the
      caller. */
  function PairWithFooter<P>(payload: Result<P, Error>, codecs: Codecs, token: JString)
    : (r: Result<TokenWithFooter<P, JString>, Error>)
    ensures payload.Failure? ==> r == Failure(payload.error)
    ensures payload.Success? && ExtractFooter(codecs, token).Failure? ==>
      r == Failure(ExtractFooter(codecs, token).error)
    ensures r.Success? <==> payload.Success? && ExtractFooter(codecs, token).Success?
    ensures r.Success? ==>
      r.value == TokenWithFooter(payload.value, ExtractFooter(codecs, token).value)
    ensures r.Success? && r.value.footer.None? ==>
      Split(token).Parsed? && IsEmpty(Split(token).sections.footer)
  {
    match payload
    case Failure(e) => Failure(e)
    case Success(p) =>
      match ExtractFooter(codecs, token)
      case Failure(e) => Failure(e)
      case Success(footer) => Success(TokenWithFooter(p, footer))
  }

  /** The typed-footer counterpart of `PairWithFooter`. */
  function PairWithTypedFooter<P, G>(payload: Result<P, Error>, codecs: Codecs,
                                     decodeAs: string -> Result<Option<G>, Error>, token: JString)
    : (r: Result<TokenWithFooter<P, Option<G>>, Error>)
    ensures payload.Failure? ==> r == Failure(payload.error)
    ensures payload.Success? && ExtractFooterAs(codecs, decodeAs, token).Failure? ==>
      r == Failure(ExtractFooterAs(codecs, decodeAs, token).error)
    ensures r.Success? <==> payload.Success? && ExtractFooterAs(codecs, decodeAs, token).Success?
    ensures r.Success? ==>
      r.value == TokenWithFooter(payload.value, ExtractFooterAs(codecs, decodeAs, token).value)
  {
    match payload
    case Failure(e) => Failure(e)
    case Success(p) =>
      match ExtractFooterAs(codecs, decodeAs, token)
      case Failure(e) => Failure(e)
      case Success(footer) => Success(TokenWithFooter(p, footer))
  }

  function DecryptWithFooter<P, F>(engine: Engine<P, F>, codecs: Codecs, token: JString, key: Bytes)
    : Result<TokenWithFooter<P, JString>, Error>
  {
    PairWithFooter(Decrypt(engine, token, key, None), codecs, token)
  }

  function DecryptWithTypedFooter<P, F, G>(engine: Engine<P, F>, codecs: Codecs,
                                           decodeAs: string -> Result<Option<G>, Error>, token: JString, key: Bytes)
    : Result<TokenWithFooter<P, Option<G>>, Error>
  {
    PairWithTypedFooter(Decrypt(engine, token, key, None), codecs, decodeAs, token)
  }

  function VerifyWithFooter<P, F>(engine: Engine<P, F>, codecs: Codecs, token: JString, publicKey: Bytes)
    : Result<TokenWithFooter<P, JString>, Error>
  {
    PairWithFooter(Verify(engine, token, publicKey, None), codecs, token)
  }

  function VerifyWithTypedFooter<P, F, G>(engine: Engine<P, F>, codecs: Codecs,
                                          decodeAs: string -> Result<Option<G>, Error>, token: JString, publicKey: Bytes)
    : Result<TokenWithFooter<P, Option<G>>, Error>
  {
    PairWithTypedFooter(Verify(engine, token, publicKey, None), codecs, decodeAs, token)
  }

  /** `decryptWithFooter` and `verifyWithFooter` return the payload of the
      footer-less operation together with the token's footer section,
      decoded, or `null` for a token without a footer; they never compare
      the footer against anything. */
  lemma WithFooterReturnsTokenFooter<P, F>(engine: Engine<P, F>, codecs: Codecs, s: Sections, k: nat, key: Bytes)
    requires WellFormed(s)
    requires s.footer.Some? ==> codecs.base64Decode(s.footer.value).Some?
    ensures var token := Some(Assemble(s) + Run(Separator, k));
      var footer := if s.footer.None? then None
                    else Some(codecs.utf8Decode(codecs.base64Decode(s.footer.value).value));
      && (engine.decrypt(token, key, None).Success? ==>
            DecryptWithFooter(engine, codecs, token, key)
              == Success(TokenWithFooter(engine.decrypt(token, key, None).value, footer)))
      && (engine.verify(token, key, None).Success? ==>
            VerifyWithFooter(engine, codecs, token, key)
              == Success(TokenWithFooter(engine.verify(token, key, None).value, footer)))
  {
    ExtractFooterOfAssembled(codecs, s, k);
  }

  /** The typed variants on an assembled token: a successful footer-less
      decrypt or verify is paired with the provider's decoding of the decoded
      footer section, `null` when the token has none or it decodes to `""`,
      and a provider failure reaches the caller. */
  lemma WithTypedFooterReturnsTokenFooter<P, F, G>(engine: Engine<P, F>, codecs: Codecs,
                                                   decodeAs: string -> Result<Option<G>, Error>,
                                                   s: Sections, k: nat, key: Bytes)
    requires WellFormed(s)
    requires s.footer.Some? ==> codecs.base64Decode(s.footer.value).Some?
    ensures var token := Some(Assemble(s) + Run(Separator, k));
      var typed: Result<Option<G>, Error> :=
        if s.footer.None? then Success(None)
        else
          var text := codecs.utf8Decode(codecs.base64Decode(s.footer.value).value);
          if text == "" then Success(None) else decodeAs(text);
      && (engine.decrypt(token, key, None).Success? ==>
            DecryptWithTypedFooter(engine, codecs, decodeAs, token, key)
              == (if typed.Success?
                  then Success(TokenWithFooter(engine.decrypt(token, key, None).value, typed.value))
                  else Failure(typed.error)))
      && (engine.verify(token, key, None).Success? ==>
            VerifyWithTypedFooter(engine, codecs, decodeAs, token, key)
              == (if typed.Success?
                  then Success(TokenWithFooter(engine.verify(token, key, None).value, typed.value))
                  else Failure(typed.error)))
  {
    ExtractFooterAsOfAssembled(codecs, decodeAs, s, k);
  }
}

=== FILE: framing.dfy ===
/** The token-framing layer of the `Paseto` facade: splitting a token into
    its VERSION, PURPOSE, PAYLOAD and optional FOOTER sections, the literal
    header check, and reading the footer back out. */
module Framing {
  import opened Wrappers
  import opened JavaStrings

  /** The section separator, ASCII 0x2E. */
  const Separator: char := '.'
  /** The purpose names the facade declares; the headers built from them are
      checked by the version-specific operations, which this model leaves
      abstract. */
  const PurposeLocal: string := "local"
  const PurposePublic: string := "public"

  newtype byte = x: int | 0 <= x < 256
  type Bytes = seq<byte>

  /** The four sections of a token. `footer` is `None` when the token has
      only three sections (`Paseto.split` puts `null` in the fourth slot). */
  datatype Sections = Sections(version: string, purpose: string, payload: string, footer: JString)

  /** What `split` returns: the sections, or the `null` array that means the
      string cannot be a token. Kept apart from an absent footer. */
  datatype SplitResult = Unparseable | Parsed(sections: Sections)

  /** The exceptions the framing code can raise. */
  datatype Error =
    | InvalidHeader(found: string, expected: string, token: JString)
    | InvalidFooter(found: string, expected: string, token: JString)
    | MalformedBase64(section: string)  // the base64url decoder rejected a section
    | NullDereference                   // a Java NullPointerException
    | ProviderError(message: string)    // raised by an abstract operation or the encoding provider

  /** The byte-level conversions the framing delegates to: base64url decoding
      (which may reject its input) and UTF-8 decoding. */
  datatype Codecs = Codecs(base64Decode: string -> Option<Bytes>, utf8Decode: Bytes -> string)

  /** The `"<version>.<purpose>."` prefix of a token. */
  function Header(version: string, purpose: string): string {
    version + [Separator] + purpose + [Separator]
  }

  /** The sections in wire order, the footer only when present. */
  function Fields(s: Sections): (r: seq<string>)
    ensures 3 <= |r| <= 4
  {
    [s.version, s.purpose, s.payload] + (if s.footer.Some? then [s.footer.value] else [])
  }

  /** The token text that carries the given sections. */
  function Assemble(s: Sections): string {
    Join(Fields(s), Separator)
  }

  /** Sections that can come out of `split`: no section holds a separator,
      and the last one present is not empty (a present footer is never
      empty, and without a footer the payload is never empty). */
  predicate WellFormed(s: Sections) {
    && SeparatorFree(Fields(s), Separator)
    && Fields(s)[|Fields(s)| - 1] != ""
  }

  /** `Paseto.split`. */
  function Split(token: JString): (r: SplitResult)
    ensures IsEmpty(token) ==> r == Unparseable
    ensures r.Parsed? ==> WellFormed(r.sections)
    ensures r.Parsed? ==> Fields(r.sections) == JavaSplit(token.value, Separator)
    ensures !IsEmpty(token) && 3 <= |JavaSplit(token.value, Separator)| <= 4 ==> r.Parsed?
  {
    if IsEmpty(token) then Unparseable
    else
      var pieces := JavaSplit(token.value, Separator);
      if |pieces| == 4 then
        assert Fields(Sections(pieces[0], pieces[1], pieces[2], Some(pieces[3]))) == pieces;
        Parsed(Sections(pieces[0], pieces[1], pieces[2], Some(pieces[3])))
      else if |pieces| == 3 then
        assert Fields(Sections(pieces[0], pieces[1], pieces[2], None)) == pieces;
        Parsed(Sections(pieces[0], pieces[1], pieces[2], None))
      else Unparseable
  }

  /** Whatever `split` accepts is the assembled text of its sections followed
      by some number of dropped trailing separators. */
  lemma SplitSound(token: JString) returns (k: nat)
    requires Split(token).Parsed?
    ensures token == Some(Assemble(Split(token).sections) + Run(Separator, k))
  {
    var t := token.value;
    var s := Split(token).sections;
    assert Separator in t;
    JavaSplitInverse(t, Separator);
    k := |Pieces(t, Separator)| - |JavaSplit(t, Separator)|;
  }

  /** `split` accepts every well-formed token, with or without trailing
      separators, and returns its sections unchanged and in order. */
  lemma SplitComplete(s: Sections, k: nat)
    requires WellFormed(s)
    ensures Split(Some(Assemble(s) + Run(Separator, k))) == Parsed(s)
  {
    JavaSplitOfJoin(Fields(s), k, Separator);
  }

  /** The exact set of strings `split` accepts: `split` yields `s` if and
      only if `s` is well formed and the token is its assembled text plus
      zero or more trailing separators. In particular a trailing separator
      never produces an empty footer, and any other section count is
      rejected. */
  lemma SplitCharacterization(token: JString, s: Sections)
    ensures Split(token) == Parsed(s) <==>
      WellFormed(s) && exists k: nat :: token == Some(Assemble(s) + Run(Separator, k))
  {
    if Split(token) == Parsed(s) {
      var k := SplitSound(token);
    }
    if WellFormed(s) && exists k: nat :: token == Some(Assemble(s) + Run(Separator, k)) {
      var k: nat :| token == Some(Assemble(s) + Run(Separator, k));
      SplitComplete(s, k);
    }
  }

  /** Java's trailing-empty stripping: one trailing separator after three
      sections leaves the footer absent rather than empty. */
  lemma TrailingSeparatorGivesNoFooter()
    ensures Split(Some("v2.local.p.")) == Parsed(Sections("v2", "local", "p", None))
  {
    var s := Sections("v2", "local", "p", None);
    assert Assemble(s) + Run(Separator, 1) == "v2.local.p.";
    SplitComplete(s, 1);
  }

  /** Leading and inner empty sections are kept. */
  lemma InnerEmptySectionKept()
    ensures Split(Some("a..b.c")) == Parsed(Sections("a", "", "b", Some("c")))
  {
    var s := Sections("a", "", "b", Some("c"));
    assert Assemble(s) + Run(Separator, 0) == "a..b.c";
    SplitComplete(s, 0);
  }

  /** Any number of trailing separators is dropped, so six raw pieces can
      still make a four-section token. */
  lemma TrailingSeparatorsIgnored()
    ensures Split(Some("a.b.c.d..")) == Parsed(Sections("a", "b", "c", Some("d")))
  {
    var s := Sections("a", "b", "c", Some("d"));
    assert Assemble(s) + Run(Separator, 2) == "a.b.c.d..";
    SplitComplete(s, 2);
  }

  /** A token of separators only has no pieces at all and is rejected, as
      are the null and the empty token. */
  lemma DegenerateTokensRejected()
    ensures Split(Some("...")) == Unparseable
    ensures Split(None) == Unparseable && Split(Some("")) == Unparseable
  {
  }

  /** Separator-free pieces whose count is neither three nor four never make
      a token, whatever trailing separators follow them (so two or five
      sections are rejected). */
  lemma WrongSectionCountRejected(ps: seq<string>, k: nat)
    requires |ps| >= 1 && |ps| != 3 && |ps| != 4
    requires SeparatorFree(ps, Separator) && ps[|ps| - 1] != ""
    ensures Split(Some(Join(ps, Separator) + Run(Separator, k))) == Unparseable
  {
    JavaSplitOfJoin(ps, k, Separator);
  }

  /** `Paseto.checkHeader`: a literal prefix test of the whole token text.
      `token.startsWith(null)` and `null.startsWith(..)` throw, and so does
      building the message from a `null` sections array. */
  function CheckHeader(token: JString, sections: SplitResult, expectedHeader: JString): (r: Outcome<Error>)
    ensures r.Pass? <==> token.Some? && expectedHeader.Some? && expectedHeader.value <= token.value
    ensures r.Fail? && r.error.InvalidHeader? ==>
      && sections.Parsed? && token.Some? && expectedHeader.Some?
      && r.error.found == Header(sections.sections.version, sections.sections.purpose)
      && r.error.expected == expectedHeader.value
      && r.error.token == token
    ensures token.None? || expectedHeader.None? ==> r == Fail(NullDereference)
    ensures token.Some? && expectedHeader.Some? && !(expectedHeader.value <= token.value) ==>
      r == if sections.Unparseable? then Fail(NullDereference)
           else Fail(InvalidHeader(Header(sections.sections.version, sections.sections.purpose),
                                   expectedHeader.value, token))
  {
    if token.None? || expectedHeader.None? then Fail(NullDereference)
    else if expectedHeader.value <= token.value then Pass
    else if sections.Unparseable? then Fail(NullDereference)
    else Fail(InvalidHeader(Header(sections.sections.version, sections.sections.purpose),
                            expectedHeader.value, token))
  }

  /** Two separator-terminated prefixes of separator-free words agree only
      when the words do. */
  lemma {:induction false} SeparatedPrefix(a: string, x: string, b: string, y: string)
    requires Separator !in a && Separator !in b
    requires a + [Separator] + x <= b + [Separator] + y
    ensures a == b && x <= y
  {
    var l := a + [Separator] + x;
    var m := b + [Separator] + y;
    var i := if |a| < |b| then |a| else |b|;
    assert l[i] == m[i];
    assert |a| == |b|;
    assert a == l[..|a|] == m[..|b|] == b;
    assert x == l[|a| + 1..];
    assert y == m[|b| + 1..];
  }

  /** The header of a parsed token is a prefix of the token. */
  lemma TokenStartsWithHeader(s: Sections, k: nat)
    ensures Assemble(s) + Run(Separator, k) ==
      Header(s.version, s.purpose) + Join(Fields(s)[2..], Separator) + Run(Separator, k)
  {
    var fs := Fields(s);
    assert fs[1..][1..] == fs[2..];
    assert Join(fs, Separator) == fs[0] + [Separator] + Join(fs[1..], Separator);
    assert Join(fs[1..], Separator) == fs[1] + [Separator] + Join(fs[2..], Separator);
  }

  /** On a token `split` accepts, the literal prefix test against a header
      built from separator-free words is the same as comparing the VERSION
      and PURPOSE sections: `checkHeader` passes exactly when both match. */
  lemma CheckHeaderComparesSections(token: string, version: string, purpose: string)
    requires Split(Some(token)).Parsed?
    requires Separator !in version && Separator !in purpose
    ensures var s := Split(Some(token)).sections;
      CheckHeader(Some(token), Split(Some(token)), Some(Header(version, purpose))).Pass?
      <==> s.version == version && s.purpose == purpose
  {
    var s := Split(Some(token)).sections;
    var k := SplitSound(Some(token));
    TokenStartsWithHeader(s, k);
    var rest := Join(Fields(s)[2..], Separator) + Run(Separator, k);
    assert token == s.version + [Separator] + (s.purpose + [Separator] + rest);
    assert Fields(s)[0] == s.version && Fields(s)[1] == s.purpose;
    if Header(version, purpose) <= token {
      assert version + [Separator] + (purpose + [Separator]) == Header(version, purpose);
      SeparatedPrefix(version, purpose + [Separator], s.version, s.purpose + [Separator] + rest);
      SeparatedPrefix(purpose, [], s.purpose, rest);
    }
  }

  /** When `checkHeader` rejects a token that `split` accepted, the header it
      reports is the one the token actually starts with. */
  lemma ReportedHeaderIsTokenPrefix(token: string, expectedHeader: string)
    requires Split(Some(token)).Parsed?
    requires CheckHeader(Some(token), Split(Some(token)), Some(expectedHeader)).Fail?
    ensures var e := CheckHeader(Some(token), Split(Some(token)), Some(expectedHeader)).error;
      e.InvalidHeader? && e.found <= token && e.found != expectedHeader
  {
    var s := Split(Some(token)).sections;
    var k := SplitSound(Some(token));
    TokenStartsWithHeader(s, k);
  }

  /** A `v2.local` token is refused by a `v1.local` or `v2.public` facade. */
  lemma CrossVersionRejected(token: string)
    requires Split(Some(token)).Parsed?
    requires Split(Some(token)).sections.version == "v2"
    requires Split(Some(token)).sections.purpose == PurposeLocal
    ensures CheckHeader(Some(token), Split(Some(token)), Some("v2.local.")).Pass?
    ensures CheckHeader(Some(token), Split(Some(token)), Some("v1.local.")).Fail?
    ensures CheckHeader(Some(token), Split(Some(token)), Some("v1.local.")).error
      == InvalidHeader("v2.local.", "v1.local.", Some(token))
    ensures CheckHeader(Some(token), Split(Some(token)), Some("v2.public.")).Fail?
    ensures CheckHeader(Some(token), Split(Some(token)), Some("v2.public.")).error
      == InvalidHeader("v2.local.", "v2.public.", Some(token))
  {
    assert Header("v2", PurposeLocal) == "v2.local.";
    assert Header("v1", PurposeLocal) == "v1.local.";
    assert Header("v2", PurposePublic) == "v2.public.";
    CheckHeaderComparesSections(token, "v2", PurposeLocal);
    CheckHeaderComparesSections(token, "v1", PurposeLocal);
    CheckHeaderComparesSections(token, "v2", PurposePublic);
  }

  /** The text of the footer section as `decodeFooter` reads it: an absent
      section counts as `""`, which is base64url-decoded and then read as
      UTF-8. `None` when the decoder rejects the section. */
  function FooterText(codecs: Codecs, s: Sections): Option<string> {
    match codecs.base64Decode(Ntes(s.footer))
    case None => None
    case Some(bytes) => Some(codecs.utf8Decode(bytes))
  }

  /** `Paseto.decodeFooter`: decodes the footer section and, only when the
      caller supplied a non-empty expected footer, insists that it matches. */
  function DecodeFooter(codecs: Codecs, token: JString, sections: SplitResult, expectedFooter: JString)
    : (r: Result<string, Error>)
    ensures sections.Unparseable? ==> r == Failure(NullDereference)
    ensures r.Success? ==> sections.Parsed? && FooterText(codecs, sections.sections) == Some(r.value)
    ensures IsEmpty(expectedFooter) && sections.Parsed? && FooterText(codecs, sections.sections).Some?
      ==> r.Success?
    ensures r.Success? && !IsEmpty(expectedFooter) ==> r.value == expectedFooter.value
    ensures sections.Parsed? && FooterText(codecs, sections.sections).Some?
      && (IsEmpty(expectedFooter) || FooterText(codecs, sections.sections).value == expectedFooter.value)
      ==> r == Success(FooterText(codecs, sections.sections).value)
    ensures sections.Parsed? && FooterText(codecs, sections.sections).None?
      ==> r == Failure(MalformedBase64(Ntes(sections.sections.footer)))
    ensures (r.Failure? && r.error.InvalidFooter?) <==>
      && sections.Parsed? && FooterText(codecs, sections.sections).Some?
      && !IsEmpty(expectedFooter)
      && FooterText(codecs, sections.sections).value != expectedFooter.value
    ensures r.Failure? && r.error.InvalidFooter? ==>
      && sections.Parsed? && FooterText(codecs, sections.sections).Some? && expectedFooter.Some?
      && r.error == InvalidFooter(FooterText(codecs, sections.sections).value, expectedFooter.value, token)
  {
    if sections.Unparseable? then Failure(NullDereference)
    else
      var userFooter := Ntes(sections.sections.footer);
      match codecs.base64Decode(userFooter)
      case None => Failure(MalformedBase64(userFooter))
      case Some(bytes) =>
        var decodedFooter := codecs.utf8Decode(bytes);
        if !IsEmpty(expectedFooter) && !IsEqual(Some(decodedFooter), expectedFooter) then
          Failure(InvalidFooter(decodedFooter, expectedFooter.value, token))
        else
          Success(decodedFooter)
  }

  /** An absent footer section is decoded exactly as an empty one. */
  lemma AbsentFooterReadsAsEmpty(codecs: Codecs, token: JString, s: Sections, expectedFooter: JString)
    requires s.footer.None?
    ensures DecodeFooter(codecs, token, Parsed(s), expectedFooter)
         == DecodeFooter(codecs, token, Parsed(s.(footer := Some(""))), expectedFooter)
  {
  }

  /** `Paseto.extractFooter(String)`: the decoded footer, or `null` when the
      footer section is absent or empty. Indexing the `null` array returned
      for an unparseable token throws. */
  function ExtractFooter(codecs: Codecs, token: JString): (r: Result<JString, Error>)
    ensures r == Failure(NullDereference) <==> Split(token).Unparseable?
    ensures r == Success(None) <==> Split(token).Parsed? && IsEmpty(Split(token).sections.footer)
    ensures r.Success? && r.value.Some? ==>
      && Split(token).Parsed?
      && !IsEmpty(Split(token).sections.footer)
      && FooterText(codecs, Split(token).sections) == r.value
    ensures Split(token).Parsed? && !IsEmpty(Split(token).sections.footer)
      && FooterText(codecs, Split(token).sections).Some?
      ==> r == Success(FooterText(codecs, Split(token).sections))
    ensures Split(token).Parsed? && !IsEmpty(Split(token).sections.footer)
      && FooterText(codecs, Split(token).sections).None?
      ==> r == Failure(MalformedBase64(Split(token).sections.footer.value))
  {
    var sections := Split(token);
    if sections.Unparseable? then Failure(NullDereference)
    else
      var footer := sections.sections.footer;
      if !IsEmpty(footer) then
        match codecs.base64Decode(footer.value)
        case None => Failure(MalformedBase64(footer.value))
        case Some(bytes) => Success(Some(codecs.utf8Decode(bytes)))
      else
        Success(None)
  }

  /** Where a footer section is present, `extractFooter` and `decodeFooter`
      without an expected footer agree: same text, same failure. */
  lemma ExtractFooterAgreesWithDecodeFooter(codecs: Codecs, token: JString)
    requires Split(token).Parsed? && Split(token).sections.footer.Some?
    ensures var e := ExtractFooter(codecs, token);
      var d := DecodeFooter(codecs, token, Split(token), None);
      && (e.Success? <==> d.Success?)
      && (e.Success? ==> e.value == Some(d.value))
      && (e.Failure? ==> e.error == d.error)
  {
  }

  /** Reading back the footer of an assembled token: the decoded footer
      section when there is one, `null` when there is none. */
  lemma ExtractFooterOfAssembled(codecs: Codecs, s: Sections, k: nat)
    requires WellFormed(s)
    ensures s.footer.None? ==> ExtractFooter(codecs, Some(Assemble(s) + Run(Separator, k))) == Success(None)
    ensures s.footer.Some? && codecs.base64Decode(s.footer.value).Some? ==>
      ExtractFooter(codecs, Some(Assemble(s) + Run(Separator, k)))
        == Success(Some(codecs.utf8Decode(codecs.base64Decode(s.footer.value).value)))
  {
    SplitComplete(s, k);
    assert s.footer.Some? ==> Fields(s)[3] == s.footer.value;
  }

  /** `Paseto.extractFooter(String, Class)`: the string footer handed to the
      encoding provider's decoder, or `null` when that string is `null` or
      empty. The decoder may itself throw or return `null`. */
  function ExtractFooterAs<F>(codecs: Codecs, decodeAs: string -> Result<Option<F>, Error>, token: JString)
    : (r: Result<Option<F>, Error>)
    ensures ExtractFooter(codecs, token).Failure? ==> r == Failure(ExtractFooter(codecs, token).error)
    ensures ExtractFooter(codecs, token).Success? && IsEmpty(ExtractFooter(codecs, token).value)
      ==> r == Success(None)
    ensures ExtractFooter(codecs, token).Success? && !IsEmpty(ExtractFooter(codecs, token).value)
      ==> r == decodeAs(ExtractFooter(codecs, token).value.value)
  {
    match ExtractFooter(codecs, token)
    case Failure(e) => Failure(e)
    case Success(footer) =>
      if !IsEmpty(footer) then decodeAs(footer.value) else Success(None)
  }

  /** Reading back the typed footer of an assembled token: the provider's
      decoding of the decoded footer section when there is one, `null` when
      there is none. */
  lemma ExtractFooterAsOfAssembled<F>(codecs: Codecs, decodeAs: string -> Result<Option<F>, Error>, s: Sections, k: nat)
    requires WellFormed(s)
    ensures s.footer.None? ==>
      ExtractFooterAs(codecs, decodeAs, Some(Assemble(s) + Run(Separator, k))) == Success(None)
    ensures s.footer.Some? && codecs.base64Decode(s.footer.value).Some? ==>
      var text := codecs.utf8Decode(codecs.base64Decode(s.footer.value).value);
      ExtractFooterAs(codecs, decodeAs, Some(Assemble(s) + Run(Separator, k)))
        == (if text == "" then Success(None) else decodeAs(text))
    ensures s.footer.Some? && codecs.base64Decode(s.footer.value).None? ==>
      ExtractFooterAs(codecs, decodeAs, Some(Assemble(s) + Run(Separator, k)))
        == Failure(MalformedBase64(s.footer.value))
  {
    ExtractFooterOfAssembled(codecs, s, k);
    SplitComplete(s, k);
    assert s.footer.Some? ==> Fields(s)[3] == s.footer.value;
  }
}

=== FILE: java_strings.dfy ===
/** The parts of `java.lang.String` and of the project's `StringUtils` helper
    that the token framing relies on: nullable strings, emptiness, and
    `String.split` with a limit of zero. */
module JavaStrings {
  import opened Wrappers

  /** A Java `String` reference, `None` being `null`. */
  type JString = Option<string>

  /** `StringUtils.isEmpty`: null or of length zero. */
  predicate IsEmpty(s: JString) {
    s.None? || s.value == ""
  }

  /** `StringUtils.ntes` ("null to empty string"). */
  function Ntes(s: JString): string {
    if s.None? then "" else s.value
  }

  /** `StringUtils.isEqual`: null-safe equality of two references. */
  predicate IsEqual(a: JString, b: JString) {
    a == b
  }

  /** `k` copies of the character `c`. */
  function Run(c: char, k: nat): (r: string)
    ensures |r| == k
    ensures forall i | 0 <= i < k :: r[i] == c
  {
    seq(k, _ => c)
  }

  /** `k` empty strings. */
  function Blanks(k: nat): (r: seq<string>)
    ensures |r| == k
    ensures forall i | 0 <= i < k :: r[i] == ""
  {
    seq(k, _ => "")
  }

  /** True when no piece contains the separator. */
  predicate SeparatorFree(ps: seq<string>, sep: char) {
    forall i | 0 <= i < |ps| :: sep !in ps[i]
  }

  /** The pieces joined back together, one separator between neighbours. */
  function Join(ps: seq<string>, sep: char): string
    requires |ps| >= 1
    decreases |ps|
  {
    if |ps| == 1 then ps[0] else ps[0] + [sep] + Join(ps[1..], sep)
  }

  /** Every maximal separator-free piece of `s`, keeping ALL empty pieces
      (leading, inner and trailing): a string with n separators has n + 1
      pieces. */
  function Pieces(s: string, sep: char): (r: seq<string>)
    ensures |r| >= 1
    ensures SeparatorFree(r, sep)
    decreases |s|
  {
    if |s| == 0 then [""]
    else
      var rest := Pieces(s[1..], sep);
      if s[0] == sep then [""] + rest
      else [[s[0]] + rest[0]] + rest[1..]
  }

  /** The longest prefix of `ps` that does not end in an empty piece. */
  function DropTrailingBlanks(ps: seq<string>): (r: seq<string>)
    ensures r <= ps
    ensures r == [] || r[|r| - 1] != ""
    ensures ps == r + Blanks(|ps| - |r|)
    decreases |ps|
  {
    if |ps| == 0 then []
    else if ps[|ps| - 1] == "" then
      var r := DropTrailingBlanks(ps[..|ps| - 1]);
      assert ps == ps[..|ps| - 1] + [""];
      assert Blanks(|ps| - |r|) == Blanks(|ps| - 1 - |r|) + [""];
      r
    else
      assert Blanks(0) == [];
      ps
  }

  /** `s.split(Pattern.quote(sep))` in Java: when the separator does not
      occur the result is `[s]` itself (so `""` gives `[""]`); otherwise it
      is every piece, leading and inner empty ones included, with the
      trailing empty pieces removed. */
  function JavaSplit(s: string, sep: char): (r: seq<string>)
    ensures SeparatorFree(r, sep)
    ensures sep !in s ==> r == [s]
    ensures sep in s ==> r == [] || r[|r| - 1] != ""
  {
    if sep !in s then [s] else DropTrailingBlanks(Pieces(s, sep))
  }

  /** Joining the pieces of a string gives back the string. */
  lemma {:induction false} JoinPieces(s: string, sep: char)
    ensures Join(Pieces(s, sep), sep) == s
    decreases |s|
  {
    if |s| > 0 {
      var rest := Pieces(s[1..], sep);
      JoinPieces(s[1..], sep);
      assert s == [s[0]] + s[1..];
      if s[0] == sep {
        assert ([""] + rest)[1..] == rest;
      } else if |rest| == 1 {
      } else {
        var ps := [[s[0]] + rest[0]] + rest[1..];
        assert ps[1..] == rest[1..];
        assert Join(rest, sep) == rest[0] + [sep] + Join(rest[1..], sep);
      }
    }
  }

  /** A separator-free string is a single piece. */
  lemma {:induction false} PiecesOfAtom(a: string, sep: char)
    requires sep !in a
    ensures Pieces(a, sep) == [a]
    decreases |a|
  {
    if |a| > 0 {
      assert sep !in a[1..] by {
        forall i | 0 <= i < |a[1..]| ensures a[1..][i] != sep {
          assert a[1..][i] == a[i + 1];
        }
      }
      PiecesOfAtom(a[1..], sep);
      assert a == [a[0]] + a[1..];
    }
  }

  /** Splitting `a + sep + t`, with `a` separator-free, yields `a` followed by
      the pieces of `t`. */
  lemma {:induction false} PiecesCons(a: string, t: string, sep: char)
    requires sep !in a
    ensures Pieces(a + [sep] + t, sep) == [a] + Pieces(t, sep)
    decreases |a|
  {
    var s := a + [sep] + t;
    if |a| == 0 {
      assert s[0] == sep;
      assert s[1..] == t;
    } else {
      assert sep !in a[1..] by {
        forall i | 0 <= i < |a[1..]| ensures a[1..][i] != sep {
          assert a[1..][i] == a[i + 1];
        }
      }
      PiecesCons(a[1..], t, sep);
      assert s[0] == a[0];
      assert s[1..] == a[1..] + [sep] + t;
      assert [a[0]] + a[1..] == a;
    }
  }

  /** Splitting is the inverse of joining separator-free pieces. */
  lemma {:induction false} PiecesOfJoin(ps: seq<string>, sep: char)
    requires |ps| >= 1
    requires SeparatorFree(ps, sep)
    ensures Pieces(Join(ps, sep), sep) == ps
    decreases |ps|
  {
    if |ps| == 1 {
      PiecesOfAtom(ps[0], sep);
    } else {
      assert SeparatorFree(ps[1..], sep) by {
        forall i | 0 <= i < |ps[1..]| ensures sep !in ps[1..][i] {
          assert ps[1..][i] == ps[i + 1];
        }
      }
      PiecesOfJoin(ps[1..], sep);
      assert sep !in ps[0];
      PiecesCons(ps[0], Join(ps[1..], sep), sep);
      assert [ps[0]] + ps[1..] == ps;
    }
  }

  /** Appending one more piece appends a separator and that piece. */
  lemma {:induction false} JoinSnoc(ps: seq<string>, q: string, sep: char)
    requires |ps| >= 1
    ensures Join(ps + [q], sep) == Join(ps, sep) + [sep] + q
    decreases |ps|
  {
    if |ps| > 1 {
      assert (ps + [q])[1..] == ps[1..] + [q];
      JoinSnoc(ps[1..], q, sep);
    } else {
      assert (ps + [q])[1..] == [q];
    }
  }

  /** Trailing empty pieces are exactly trailing separators. */
  lemma {:induction false} JoinBlanks(ps: seq<string>, k: nat, sep: char)
    requires |ps| >= 1
    ensures Join(ps + Blanks(k), sep) == Join(ps, sep) + Run(sep, k)
    decreases k
  {
    if k == 0 {
      assert ps + Blanks(0) == ps;
      assert Run(sep, 0) == [];
    } else {
      JoinBlanks(ps, k - 1, sep);
      assert ps + Blanks(k) == (ps + Blanks(k - 1)) + [""];
      JoinSnoc(ps + Blanks(k - 1), "", sep);
      assert Run(sep, k) == Run(sep, k - 1) + [sep];
    }
  }

  /** Dropping trailing blanks undoes appending them to a list that does not
      already end in a blank. */
  lemma {:induction false} DropAppendedBlanks(ps: seq<string>, k: nat)
    requires ps == [] || ps[|ps| - 1] != ""
    ensures DropTrailingBlanks(ps + Blanks(k)) == ps
    decreases k
  {
    if k == 0 {
      assert ps + Blanks(0) == ps;
    } else {
      var qs := ps + Blanks(k);
      assert qs[|qs| - 1] == "";
      assert qs[..|qs| - 1] == ps + Blanks(k - 1);
      DropAppendedBlanks(ps, k - 1);
    }
  }

  /** `JavaSplit` keeps everything but trailing separators: joining its
      pieces and putting back the dropped separators restores the input. */
  lemma JavaSplitInverse(s: string, sep: char)
    requires sep in s
    ensures var r := JavaSplit(s, sep);
      |r| >= 1 ==> s == Join(r, sep) + Run(sep, |Pieces(s, sep)| - |r|)
  {
    var ps := Pieces(s, sep);
    var r := JavaSplit(s, sep);
    JoinPieces(s, sep);
    if |r| >= 1 {
      JoinBlanks(r, |ps| - |r|, sep);
    }
  }

  /** A string whose pieces are all empty consists of separators only, and
      `JavaSplit` then returns no pieces at all. */
  lemma JavaSplitAllSeparators(k: nat, sep: char)
    requires k >= 1
    ensures JavaSplit(Run(sep, k), sep) == []
  {
    var s := Run(sep, k);
    assert s[0] == sep;
    JoinBlanks([""], k, sep);
    assert [""] + Blanks(k) == Blanks(k + 1);
    assert Join([""], sep) + Run(sep, k) == s;
    PiecesOfJoin(Blanks(k + 1), sep);
    DropAppendedBlanks([], k + 1);
    assert [] + Blanks(k + 1) == Blanks(k + 1);
  }

  /** `JavaSplit` recovers separator-free pieces, the last one non-empty,
      from their join followed by any number of trailing separators. */
  lemma JavaSplitOfJoin(ps: seq<string>, k: nat, sep: char)
    requires |ps| >= 1 && SeparatorFree(ps, sep) && ps[|ps| - 1] != ""
    ensures JavaSplit(Join(ps, sep) + Run(sep, k), sep) == ps
  {
    var t := Join(ps, sep) + Run(sep, k);
    if sep in t {
      JoinBlanks(ps, k, sep);
      assert SeparatorFree(ps + Blanks(k), sep) by {
        forall i | 0 <= i < |ps + Blanks(k)| ensures sep !in (ps + Blanks(k))[i] {
          if i >= |ps| {
            assert (ps + Blanks(k))[i] == "";
          }
        }
      }
      PiecesOfJoin(ps + Blanks(k), sep);
      DropAppendedBlanks(ps, k);
    } else {
      assert Run(sep, k) == [];
      assert |ps| == 1 && t == ps[0];
      assert ps == [t];
    }
  }
}

=== FILE: wrappers.dfy ===
/** Failure-carrying datatypes used in place of Java's `null` returns and
    thrown exceptions. */
module Wrappers {

  /** `None` plays the part of a Java `null` reference. */
  datatype Option<+T> = None | Some(value: T)

  /** A computation that either returns a value or throws an error. */
  datatype Result<+R, +E> = Success(value: R) | Failure(error: E)

  /** A computation with no result (a Java `void` method) that may throw. */
  datatype Outcome<+E> = Pass | Fail(error: E)
}
